=== FILE: README.md ===
# Journal: a verified model of a one-file journaling command

The program keeps a personal journal in `<home>/journal.json`. It has two
modes:

- `journal <words...>` appends one entry. The entry's text is the words
  joined with single spaces, and its timestamp is the current UTC time. The
  entry is written as one JSON line.
- `journal -n <count>` reads the whole file and decodes every line. It then
  prints the last `count` entries, oldest first, each as
  `<timestamp> - <text>`.

This project models that program as pure functions over immutable data and
proves properties of it in Dafny.

| file | module | what it models |
|---|---|---|
| `wrappers.dfy` | `Wrappers` | `Option` and `Result` |
| `seqs.dfy` | `Seqs` | `Min` (Rust's `std::cmp::min`) and `Map` over sequences |
| `text.dfy` | `Text` | `Join` (`[String]::join`), `Split` (`str::split` on a character), and the round trips between them |
| `logfile.dfy` | `LogFile` | The file as text. `AppendLine` is `writeln!` on a file opened for appending. `Lines` is `BufRead::lines`: split at `\n`, drop a `\r` before a `\n`, drop an empty final piece. |
| `journal.dfy` | `Journal` | Entries, the journal path, appending, decoding every line or none, selecting the last N, and formatting and printing (`PrintLastN` is the source's `for` loop) |
| `cli.dfy` | `Cli` | Deciding what to do from the argument vector |
| `program.dfy` | `Program` | `Run`: one whole run as a function from the environment (arguments, home directory, file system, clock) to the exit status, printed lines and new file system. Also lemmas about series of runs. |

Library code the program calls is passed in as function-typed parameters:

- `Codec.encode` and `Codec.decode` stand for `serde_json`.
- `Libs.format` stands for chrono's `%Y-%m-%d %H:%M:%S` formatting.
- `Libs.parse` stands for `str::parse::<usize>`.

The home directory, the clock reading and the file system are inputs. The
file system is a map from path to a file: its text, whether it may be opened
for reading, and whether it may be opened for appending. The two permissions
are independent, because the program opens the file in two different modes. The JSON round trip is not proved. It is stated once as the
ghost predicate `Journal.Faithful`: every entry encodes to a single line that
decodes back to the same entry. Lemmas that depend on it take it as a
precondition.

Exit statuses follow the code:

- 1 after the usage message (fewer than two arguments);
- 101 for every other error, since each one is an `expect` or `unwrap` panic;
- 0 otherwise.

A malformed read request is one where `-n` has no count after it, or a count
the parser rejects. The code handles that with a panic (status 101) and the
message "Expected a number after the -n flag". It does not print the usage
message, and it does not exit with 1. The model follows the code (`Cli.MissingCount`, `Cli.BadCount`).

## Model

| member | source | states |
|---|---|---|
| Cli.Dispatch | src/main.rs:13-31 | Too few arguments (fewer than two) gives the usage error, exactly. An `-n` second argument gives a read when a third argument exists and parses; it gives `MissingCount` with no third argument and `BadCount` when the parser rejects it. Any other second argument gives a write whose body is the remaining arguments joined with single spaces. |
| Cli.ReadFlagNeverWrites | src/main.rs:20-27 | When the second argument is `-n`, the run reads or fails. It never writes. |
| Cli.ReadIgnoresExtraArgs | src/main.rs:21-25 | Arguments after the count do not change a read. |
| Cli.SingleWordBody | src/main.rs:28-30 | A single argument (other than `-n`) is written unchanged. |
| Cli.WriteBodyWords | src/main.rs:28-30 | If no argument contains a space, splitting the written body at spaces gives back exactly the arguments. No word is lost, merged or reordered. |
| Cli.BuyMilkToday | src/main.rs:29 | `journal buy milk today` writes the body `"buy milk today"`. |
| Text.Join | src/main.rs:29 | No parts join to the empty string. One part joins to itself. Otherwise the length is the total length of the parts plus one separator per neighbouring pair. |
| Text.Split | src/main.rs:67-68 | Splitting always gives at least one piece, and no piece contains the separator. |
| Text.SplitCount | src/main.rs:67-68 | Splitting gives one more piece than there are separators in the text. |
| Text.JoinSplit | src/main.rs:67-68 | Joining the pieces of a split with the separator gives back the original text. |
| Text.SplitJoin | src/main.rs:29 | For at least one separator-free part, splitting the joined text gives back exactly the parts. |
| Text.SplitAtSeparator | src/main.rs:67-68 | Splitting `a + sep + b` gives the pieces of `a` followed by the pieces of `b`. |
| Text.SplitNoSeparator | src/main.rs:67-68 | Text without the separator splits into one piece, itself. |
| LogFile.StripCr | src/main.rs:67-68 | A piece ending in `\r` loses exactly that `\r`, as `BufRead::lines` drops the carriage return of a CRLF ending. A piece that is a proper line comes through unchanged. |
| LogFile.Lines | src/main.rs:65-68 | No line the reader yields contains a newline. |
| LogFile.LinesUnterminated | src/main.rs:65-68 | A final line with no newline is still yielded, exactly as written, trailing carriage return included. The lines before it are unchanged. |
| LogFile.AppendLine | src/main.rs:58 | A write keeps the old text as a prefix, and what follows it is exactly the line and one newline. |
| LogFile.Unlines | src/main.rs:58 | A file built only by appends is newline-terminated. |
| LogFile.LinesAppendLine | src/main.rs:58-68 | Appending one line to a newline-terminated file makes the reader see the old lines unchanged, plus exactly that line at the end. |
| LogFile.LinesAppendRaw | src/main.rs:58-68 | Appending any newline-free text to a terminated file makes the reader see the old lines unchanged, then that text without a trailing carriage return. |
| LogFile.LinesAppendCrLfLine | src/main.rs:67-68 | A line added to a terminated file with a `\r\n` ending reads back without its carriage return, after the old lines. |
| LogFile.LinesUnlines | src/main.rs:58-68 | A file written line by line reads back as exactly those lines, in order. |
| Journal.JournalPath | src/main.rs:34-38 | The path is the home directory followed by `/journal.json`, so it starts with the home directory and ends with that suffix. |
| Journal.HomeOf | src/main.rs:37 | This is the inverse of path building. It succeeds exactly on paths ending in `/journal.json`, and the result is the part before that suffix. |
| Journal.HomeOfJournalPath | src/main.rs:37 | The home directory can be recovered from the journal path. |
| Journal.JournalPathOfHomeOf | src/main.rs:37 | Every path ending in `/journal.json` is the journal path of what comes before that suffix. |
| Journal.JournalPathInjective | src/main.rs:34-38 | Different home directories give different journal paths. |
| Journal.ResolvePath | src/main.rs:35-36 | Resolution succeeds exactly when the home directory is known and is valid Unicode. It fails with the matching error otherwise, and the path it gives leads back to that home directory. |
| Journal.Append | src/main.rs:41-58 | The journal grows by exactly one entry. Every earlier entry keeps its value and position, and the new entry is last. |
| Seqs.Min | src/main.rs:76 | The count of entries shown is at most both the requested count and the number of entries, and equals one of them. |
| Journal.LastN | src/main.rs:75-78 | `min(n, count)` entries are selected, starting at `count - min(n, count)`, which is never negative. They are in file order. `n = 0` selects nothing and `n >= count` selects everything. |
| Journal.LastNIsScanFromEnd | src/main.rs:75-85 | Selecting the tail after loading everything equals an independent backward scan that stops after `n` entries. |
| Journal.LastOneAfterAppend | src/main.rs:41-85 | Reading the last entry after a write gives exactly the entry just written. |
| Journal.LastNAfterAppends | src/main.rs:75-85 | Reading as many entries as were just written gives them back, in the order they were written. |
| Journal.LastNOfLastN | src/main.rs:75-78 | The last `n` of the last `m` are the last `min(m, n)`. |
| Journal.DecodeAll | src/main.rs:67-73 | Decoding succeeds exactly when every line decodes. If it succeeds, there is one entry per line, each the decoding of its line, in file order. |
| Journal.DecodeAllEncoded | src/main.rs:67-73 | Under a faithful codec, decoding the encoded entries gives back the entries. |
| Journal.FormatLine | src/main.rs:80-84 | A printed line is the formatted timestamp, then `" - "`, then the entry text verbatim. |
| Journal.FormatLastN | src/main.rs:75-85 | A read prints `min(n, count)` lines. Line `i` is the formatted entry at `count - min(n, count) + i`. |
| Journal.PrintLastN | src/main.rs:75-85 | The printing loop emits `min(n, count)` lines. Line `i` formats entry `count - min(n, count) + i`, so the oldest selected entry comes first. |
| Program.WriteEntry | src/main.rs:41-58 | A write fails exactly when the home directory is unavailable or the journal exists but may not be opened for appending. Otherwise it changes only the journal file, extending it by exactly one encoded line holding the current time and the body. An existing file keeps its permissions; a new one is created readable and appendable. |
| Program.ReadLastN | src/main.rs:61-86 | A read fails on a missing home directory, with FileNotFound on a missing file, and with FileOpenError on a file that may not be opened for reading. It succeeds exactly when every line decodes. For any file, it then prints `min(n, count)` lines of the decoded entries, and line `i` is entry `count - min(n, count) + i`. |
| Program.Run | src/main.rs:13-31 | Exit status is 0, 1 or 101, and 1 exactly when there are too few arguments. A failed run prints nothing and changes nothing. A write exits 0 exactly when writing the entry succeeds, and a read exits 0 exactly when reading the journal succeeds. Otherwise it panics: missing home directory, a journal that cannot be opened, or a line that does not decode. A successful write leaves exactly the file system the write produced: only the journal changes, by one encoded line. A successful read prints exactly the lines the read formats, an unterminated last line included. Only a write changes the file system, and only a read prints. Arguments are taken as valid Unicode and printing as never failing (see "Left out"). |
| Program.RunTooFewArgs | src/main.rs:15-18 | Too few arguments: usage status 1, no output, file system unchanged. |
| Program.RunBadCount | src/main.rs:20-25 | `-n` with no count or an unparsable count is a fatal error. Nothing is written or printed. |
| Program.RunWriteExtendsJournal | src/main.rs:41-58 | Start from a journal storing `entries` (a missing file stores none) that may be appended to. A write run succeeds and leaves the file storing `entries` plus the new entry, which has the current time and the body verbatim. The file's permissions are unchanged. |
| Program.RunReadPrintsLastN | src/main.rs:61-86 | Reading a readable, well-formed journal prints the formatted last `n` entries in file order, and changes nothing. |
| Program.RunReadRejectsBadLine | src/main.rs:67-73 | If any line fails to decode, the read fails as a whole and prints nothing. |
| Program.RunWriteFails | src/main.rs:35-53 | A write with no usable home directory, or to an existing journal that may not be appended to, exits 101. It prints nothing and leaves the file system unchanged. |
| Program.RunReadFails | src/main.rs:35-64 | A read with no usable home directory, or of an existing journal that may not be read, exits 101. It prints nothing and leaves the file system unchanged. |
| Program.RunMissingFile | src/main.rs:48-64 | When no journal file exists, a read fails and a write succeeds and creates the file. |
| Program.WriteThenReadLast | src/main.rs:41-85 | Write, then read the last 1: the read exits 0 and prints exactly one line, the entry just written. The file system is left as the write left it. |
| Program.RunAllFirstStep | src/main.rs:41-58 | The first write of a series stores its entry at the end of the journal and keeps the permissions. The rest of the series then runs on the file system that write produced. |
| Program.WrittenTail | src/main.rs:41-58 | The entries of a series of writes are the first run's entry followed by the rest's. |
| Program.RunAllExtendsJournal | src/main.rs:41-58 | A series of write runs on an appendable journal appends one entry per run, in run order, after the existing entries. The permissions are unchanged. |
| Program.RunAllThenReadBack | src/main.rs:41-85 | After `k >= 1` write runs, reading the last `k` exits 0 and prints exactly the written entries, oldest first. The file system is left unchanged. |

## Left out

- Filesystem I/O is abstracted. The file system is a map from paths to files, each with its text and separate read and append permissions. A failure of `writeln!` itself (for example, a full disk or a partial write) is not modelled. A missing parent directory is not modelled: creating an absent journal always succeeds.
- A directory or other non-file at the journal path is not a separate case. It is represented as a file that may be opened in neither mode. Reading a directory really fails later, at the first line read rather than at the open, but both end the run with status 101 and no output.
- A newly created journal is always readable and appendable. The umask's effect on its mode is not modelled.
- The invalid-UTF-8 line error (`line.expect`) is not modelled, because text is modelled as `seq<char>` and cannot be invalid UTF-8.
- `serde_json` encoding and decoding are parameters. Their round trip is assumed through `Journal.Faithful` and never proved. A serialization failure is not modelled, because serialization cannot fail for a record of a timestamp and a string.
- `Utc::now()` and chrono's `%Y-%m-%d %H:%M:%S` formatting are not modelled. The clock reading is an input, and the formatter is a parameter.
- `dirs::home_dir()` is not modelled. Its result is an input (`HomeLookup`), which also covers the non-Unicode case behind `to_str().unwrap()`.
- `str::parse::<usize>` is a parameter returning `Option<nat>`. The `usize` upper bound is therefore not modelled.
- Messages on standard error and the panic texts are not modelled. Only exit statuses are.
- Program.Run: arguments are assumed to be valid Unicode. `env::args()` panics with status 101 on an argument that is not, even when there are fewer than two arguments. The model takes arguments as `seq<char>`, which cannot hold such an argument.
- Program.Run: printing is assumed never to fail. `println!` panics with status 101 when writing to standard output fails, for example on a closed pipe. The lines printed before that point have then already gone out. The model returns all selected lines with status 0.
- The write path is created (`create(true)`) before the entry is serialized. The order is not modelled, because serialization cannot fail.
- Concurrent invocations appending to the same file are out of scope.
- The model defines what happens when a line is appended to a file whose last line has no newline: the new text joins that last line. This only arises after the file is edited by hand, and no lemma is stated about it.

=== FILE: cli.dfy ===
/** The command line: which of the two operations a run performs. */
module Cli {
  import opened Wrappers
  import opened Text

  /** The flag that selects reading. */
  const ReadFlag: string := "-n"

  /** What the argument vector asks for. */
  datatype Command =
    | Usage                 // no argument after the program name
    | MissingCount          // the read flag with nothing after it
    | BadCount(arg: string) // the read flag followed by text the count parser rejects
    | ReadLast(n: nat)      // print the last `n` entries
    | Write(body: string)   // append an entry with this text

  /** Decides the run from the argument vector (`args[0]` is the program name).
      `parse` is the unsigned-integer parser, outside this model. */
  function Dispatch(args: seq<string>, parse: string -> Option<nat>): (c: Command)
    ensures c.Usage? <==> |args| < 2
    ensures c.Write? <==> |args| >= 2 && args[1] != ReadFlag
    ensures c.Write? ==> c.body == Join(args[1..], " ")
    ensures c.MissingCount? <==> |args| == 2 && args[1] == ReadFlag
    ensures c.BadCount? <==> |args| >= 3 && args[1] == ReadFlag && parse(args[2]).None?
    ensures c.BadCount? ==> c.arg == args[2]
    ensures c.ReadLast? <==> |args| >= 3 && args[1] == ReadFlag && parse(args[2]).Some?
    ensures c.ReadLast? ==> parse(args[2]) == Some(c.n)
  {
    if |args| < 2 then Usage
    else if args[1] == ReadFlag then
      if |args| < 3 then MissingCount
      else
        match parse(args[2])
        case None => BadCount(args[2])
        case Some(n) => ReadLast(n)
    else Write(Join(args[1..], " "))
  }

  /** The read flag never leads to a write, whatever follows it: no entry
      with the text "-n" is ever produced. */
  lemma ReadFlagNeverWrites(args: seq<string>, parse: string -> Option<nat>)
    requires |args| >= 2 && args[1] == ReadFlag
    ensures Dispatch(args, parse).ReadLast? || Dispatch(args, parse).MissingCount? || Dispatch(args, parse).BadCount?
  {
  }

  /** Arguments after the count are ignored by a read. */
  lemma ReadIgnoresExtraArgs(args: seq<string>, extra: seq<string>, parse: string -> Option<nat>)
    requires |args| >= 3 && args[1] == ReadFlag
    ensures Dispatch(args + extra, parse) == Dispatch(args, parse)
  {
    assert (args + extra)[1] == args[1] && (args + extra)[2] == args[2];
  }

  /** A single word is written unchanged. */
  lemma SingleWordBody(prog: string, word: string, parse: string -> Option<nat>)
    requires word != ReadFlag
    ensures Dispatch([prog, word], parse) == Write(word)
  {
    assert [prog, word][1..] == [word];
  }

  /** The words of a write are recoverable from its body: when no word holds a
      space, splitting the body at spaces gives back exactly the words. */
  lemma WriteBodyWords(args: seq<string>, parse: string -> Option<nat>)
    requires |args| >= 2 && args[1] != ReadFlag
    requires forall i :: 1 <= i < |args| ==> ' ' !in args[i]
    ensures Split(Dispatch(args, parse).body, ' ') == args[1..]
  {
    var words := args[1..];
    assert forall i :: 0 <= i < |words| ==> ' ' !in words[i] by {
      forall i | 0 <= i < |words| ensures ' ' !in words[i] {
        assert words[i] == args[i + 1];
      }
    }
    SplitJoin(words, ' ');
  }

  /** Joining the words of a write puts exactly one space between neighbours. */
  lemma BuyMilkToday(parse: string -> Option<nat>)
    ensures Dispatch(["journal", "buy", "milk", "today"], parse) == Write("buy milk today")
  {
    var args := ["journal", "buy", "milk", "today"];
    assert args[1..] == ["buy", "milk", "today"];
    assert args[1..][1..] == ["milk", "today"];
    assert args[1..][1..][1..] == ["today"];
  }
}

=== FILE: journal.dfy ===
/** The journal itself: its entries, where it lives, how a write extends it and
    how a read selects and prints its most recent entries. */
module Journal {
  import opened Wrappers
  import opened Seqs
  import LogFile

  /** An instant in UTC. Only its identity matters here; the calendar
      arithmetic behind it belongs to the date-time library. */
  datatype Timestamp = Timestamp(unixNanos: int)

  /** One record of the journal: when it was written and the text written. */
  datatype Entry = Entry(timestamp: Timestamp, body: string)

  /** The single-line JSON encoder and decoder for entries, which are library
      code outside this model; the decoder rejects a line with None. */
  datatype Codec = Codec(encode: Entry -> string, decode: string -> Option<Entry>)

  /** What the encoder and decoder are relied upon to do: every entry encodes
      to one line that decodes back to that entry. This is an assumption about
      the JSON library, stated rather than proved. */
  ghost predicate Faithful(codec: Codec)
  {
    forall e :: codec.decode(codec.encode(e)) == Some(e) && LogFile.IsLine(codec.encode(e))
  }

  /** Why a run of the program stops early. */
  datatype Error =
    | HomeDirectoryUnavailable  // no home directory could be determined
    | HomeNotUnicode            // the home directory path is not valid Unicode
    | FileOpenError             // the journal file exists but may not be opened in the mode needed
    | FileNotFound              // reading a journal that was never written
    | DeserializationError      // some line of the journal is not an encoded entry

  /** What the environment says about the user's home directory. */
  datatype HomeLookup = NoHome | NonUnicodeHome | Home(dir: string)

  /** The name appended to the home directory. */
  const FileSuffix: string := "/journal.json"

  /** The journal's location: the home directory followed by "/journal.json". */
  function JournalPath(home: string): (path: string)
    ensures |path| == |home| + |FileSuffix|
    ensures path[..|home|] == home
    ensures path[|home|..] == FileSuffix
  {
    home + FileSuffix
  }

  /** The home directory a journal path was built from, if it is one. */
  function HomeOf(path: string): (r: Option<string>)
    ensures r.Some? <==> |path| >= |FileSuffix| && path[|path| - |FileSuffix|..] == FileSuffix
    ensures r.Some? ==> |r.value| + |FileSuffix| == |path| && r.value == path[..|r.value|]
  {
    if |path| >= |FileSuffix| && path[|path| - |FileSuffix|..] == FileSuffix
    then Some(path[..|path| - |FileSuffix|])
    else None
  }

  /** The home directory is recoverable from the journal path. */
  lemma HomeOfJournalPath(home: string)
    ensures HomeOf(JournalPath(home)) == Some(home)
  {
    var path := JournalPath(home);
    assert path[|path| - |FileSuffix|..] == FileSuffix;
    assert path[..|path| - |FileSuffix|] == home;
  }

  /** Every path ending in "/journal.json" is the journal path of its prefix. */
  lemma JournalPathOfHomeOf(path: string)
    requires HomeOf(path).Some?
    ensures JournalPath(HomeOf(path).value) == path
  {
    var home := HomeOf(path).value;
    assert path == path[..|home|] + path[|home|..];
  }

  /** Different home directories give different journal files. */
  lemma JournalPathInjective(a: string, b: string)
    requires JournalPath(a) == JournalPath(b)
    ensures a == b
  {
    HomeOfJournalPath(a);
    HomeOfJournalPath(b);
  }

  /** Path resolution: a missing or non-Unicode home directory stops the run. */
  function ResolvePath(home: HomeLookup): (r: Result<string, Error>)
    ensures r.Success? <==> home.Home?
    ensures home.NoHome? ==> r == Failure(HomeDirectoryUnavailable)
    ensures home.NonUnicodeHome? ==> r == Failure(HomeNotUnicode)
    ensures r.Success? ==> HomeOf(r.value) == Some(home.dir)
  {
    match home
    case NoHome => Failure(HomeDirectoryUnavailable)
    case NonUnicodeHome => Failure(HomeNotUnicode)
    case Home(dir) => HomeOfJournalPath(dir); Success(JournalPath(dir))
  }

  /** A write at the level of entries: exactly one entry is added, at the end,
      and every stored entry keeps its value and position. */
  function Append(journal: seq<Entry>, e: Entry): (r: seq<Entry>)
    ensures |r| == |journal| + 1
    ensures r[..|journal|] == journal
    ensures r[|journal|] == e
    ensures forall x :: x in r <==> x in journal || x == e
  {
    journal + [e]
  }

  /** The last `n` entries in file order: `min(n, count)` of them, starting at
      `count - min(n, count)`, which is never negative. */
  function LastN<T>(s: seq<T>, n: nat): (r: seq<T>)
    ensures |r| == Min(n, |s|)
    ensures r == s[|s| - |r|..]
    ensures n == 0 ==> r == []
    ensures n >= |s| ==> r == s
  {
    var start: nat := |s| - Min(n, |s|);
    s[start..]
  }

  /** An independent definition of the same selection, as a reader that scans
      backwards from the end and stops after `n` entries would compute it. */
  function ScanFromEnd<T>(s: seq<T>, n: nat): seq<T>
  {
    if n == 0 || |s| == 0 then [] else ScanFromEnd(s[..|s| - 1], n - 1) + [s[|s| - 1]]
  }

  /** Loading everything and keeping the tail selects the same entries as
      scanning backwards from the end. */
  lemma {:induction false} LastNIsScanFromEnd<T>(s: seq<T>, n: nat)
    ensures LastN(s, n) == ScanFromEnd(s, n)
  {
    if n != 0 && |s| != 0 {
      var init := s[..|s| - 1];
      assert ScanFromEnd(s, n) == ScanFromEnd(init, n - 1) + [s[|s| - 1]];
      LastNIsScanFromEnd(init, n - 1);
      LastNDropLast(s, n);
    }
  }

  /** The last `n` of a non-empty sequence are the last `n - 1` before its final
      element, then that element. */
  lemma LastNDropLast<T>(s: seq<T>, n: nat)
    requires n > 0 && |s| > 0
    ensures LastN(s, n) == LastN(s[..|s| - 1], n - 1) + [s[|s| - 1]]
  {
    var init := s[..|s| - 1];
    var start := |s| - Min(n, |s|);
    assert Min(n - 1, |init|) == Min(n, |s|) - 1;
    assert LastN(init, n - 1) == init[start..] == s[start..|s| - 1];
    assert s[start..] == s[start..|s| - 1] + [s[|s| - 1]];
  }

  /** After a write, reading the last entry gives exactly the entry just written. */
  lemma LastOneAfterAppend(journal: seq<Entry>, e: Entry)
    ensures LastN(Append(journal, e), 1) == [e]
  {
  }

  /** Writing several entries and then reading that many gives them back in the
      order they were written. */
  lemma LastNAfterAppends<T>(journal: seq<T>, written: seq<T>)
    ensures LastN(journal + written, |written|) == written
  {
  }

  /** Taking the last `n` of the last `m` is taking the last `min(m, n)`. */
  lemma LastNOfLastN<T>(s: seq<T>, m: nat, n: nat)
    ensures LastN(LastN(s, m), n) == LastN(s, Min(m, n))
  {
  }

  /** Decodes every line or rejects the whole file: None as soon as one line
      fails, otherwise one entry per line, in file order. */
  function DecodeAll(lines: seq<string>, decode: string -> Option<Entry>): (r: Option<seq<Entry>>)
    ensures r.Some? <==> forall i :: 0 <= i < |lines| ==> decode(lines[i]).Some?
    ensures r.Some? ==> |r.value| == |lines|
    ensures r.Some? ==> forall i :: 0 <= i < |lines| ==> decode(lines[i]) == Some(r.value[i])
  {
    if |lines| == 0 then Some([])
    else
      match decode(lines[0])
      case None => None
      case Some(e) =>
        match DecodeAll(lines[1..], decode)
        case None => None
        case Some(rest) => Some([e] + rest)
  }

  /** Lines written by a faithful encoder decode back to the entries they came from. */
  lemma DecodeAllEncoded(codec: Codec, entries: seq<Entry>)
    requires Faithful(codec)
    ensures DecodeAll(Map(codec.encode, entries), codec.decode) == Some(entries)
  {
    var lines := Map(codec.encode, entries);
    var r := DecodeAll(lines, codec.decode);
    assert forall i :: 0 <= i < |lines| ==> codec.decode(lines[i]) == Some(entries[i]);
    assert r.Some?;
    assert r.value == entries;
  }

  /** One printed line: the formatted timestamp, " - ", then the entry text. */
  function FormatLine(e: Entry, format: Timestamp -> string): (line: string)
    ensures |line| == |format(e.timestamp)| + 3 + |e.body|
    ensures line[..|format(e.timestamp)|] == format(e.timestamp)
    ensures line[|format(e.timestamp)|..] == " - " + e.body
  {
    format(e.timestamp) + " - " + e.body
  }

  /** What a read prints for the last `n` entries. */
  function FormatLastN(entries: seq<Entry>, n: nat, format: Timestamp -> string): (out: seq<string>)
    ensures |out| == Min(n, |entries|)
    ensures forall i :: 0 <= i < |out| ==> out[i] == FormatLine(entries[|entries| - |out| + i], format)
  {
    var selected := LastN(entries, n);
    assert forall i :: 0 <= i < |selected| ==> selected[i] == entries[|entries| - |selected| + i];
    Map((e: Entry) => FormatLine(e, format), selected)
  }

  /** The printing loop of a read: indices from `count - min(n, count)` up to
      `count`, one formatted line per entry, oldest of the selected first. */
  method PrintLastN(entries: seq<Entry>, n: nat, format: Timestamp -> string) returns (out: seq<string>)
    ensures |out| == Min(n, |entries|)
    ensures forall i :: 0 <= i < |out| ==> out[i] == FormatLine(entries[|entries| - |out| + i], format)
    ensures out == FormatLastN(entries, n, format)
  {
    var numEntries := |entries|;
    var entriesToPrint := Min(n, numEntries);
    var start: nat := numEntries - entriesToPrint;
    out := [];
    var i := start;
    while i < numEntries
      invariant start <= i <= numEntries
      invariant |out| == i - start
      invariant forall j :: 0 <= j < |out| ==> out[j] == FormatLine(entries[start + j], format)
    {
      out := out + [FormatLine(entries[i], format)];
      i := i + 1;
    }
  }
}

=== FILE: logfile.dfy ===
/** The journal file as text: `writeln!` appends one line and its newline,
    and `BufRead::lines` cuts the text back into lines. */
module LogFile {
  import opened Seqs
  import opened Text

  /** Text that is empty or ends with a newline: the next append starts a fresh line. */
  predicate Terminated(s: string)
  {
    |s| == 0 || s[|s| - 1] == '\n'
  }

  /** A string that survives a write and a read as one line: no newline inside,
      and no trailing carriage return that the reader would strip. */
  predicate IsLine(s: string)
  {
    '\n' !in s && (|s| == 0 || s[|s| - 1] != '\r')
  }

  /** One line as `BufRead::lines` yields it after removing "\n": a "\r" just before it goes too. */
  function StripCr(s: string): (r: string)
    ensures |r| <= |s|
    ensures r == s[..|r|]
    ensures |s| > 0 && s[|s| - 1] == '\r' ==> r == s[..|s| - 1]
    ensures IsLine(s) ==> r == s
  {
    if |s| > 0 && s[|s| - 1] == '\r' then s[..|s| - 1] else s
  }

  /** The lines of `content`, as `BufRead::lines` returns them: every
      newline-terminated piece without its "\n" (and a "\r" before it), then the
      final unterminated piece if it is not empty. */
  function Lines(content: string): (r: seq<string>)
    ensures forall i :: 0 <= i < |r| ==> '\n' !in r[i]
  {
    var pieces := Split(content, '\n');
    var last := pieces[|pieces| - 1];
    Map(StripCr, pieces[..|pieces| - 1]) + (if last == "" then [] else [last])
  }

  /** `writeln!(file, "{}", line)` on a file opened for appending. */
  function AppendLine(content: string, line: string): (r: string)
    ensures Terminated(r)
    ensures |r| == |content| + |line| + 1
    ensures r[..|content|] == content
    ensures r[|content|..] == line + "\n"
  {
    content + line + "\n"
  }

  /** The file text made of the given lines, each followed by a newline. */
  function Unlines(lines: seq<string>): (r: string)
    ensures Terminated(r)
  {
    if |lines| == 0 then "" else AppendLine(Unlines(lines[..|lines| - 1]), lines[|lines| - 1])
  }

  /** Terminated text splits into pieces whose last one is empty. */
  lemma {:induction false} TerminatedSplit(content: string) returns (init: seq<string>)
    requires Terminated(content)
    ensures Split(content, '\n') == init + [""]
    ensures Lines(content) == Map(StripCr, init)
  {
    if |content| == 0 {
      init := [];
    } else {
      var p := content[..|content| - 1];
      assert content == p + ['\n'] + "";
      SplitAtSeparator(p, "", '\n');
      init := Split(p, '\n');
      assert Split(content, '\n')[..|init|] == init;
    }
  }

  /** A line and its newline split into the line and an empty rest. */
  lemma {:induction false} SplitOneLine(line: string) returns (tail: string)
    requires '\n' !in line
    ensures tail == line + "\n"
    ensures Split(tail, '\n') == [line, ""]
  {
    tail := line + ['\n'] + "";
    SplitNoSeparator(line, '\n');
    SplitAtSeparator(line, "", '\n');
  }

  /** The pieces of a terminated file with one more line appended. */
  lemma {:induction false} SplitAppendLine(content: string, line: string, init: seq<string>)
    requires Split(content, '\n') == init + [""]
    requires Terminated(content)
    requires '\n' !in line
    ensures Split(AppendLine(content, line), '\n') == (init + [line]) + [""]
  {
    var tail := SplitOneLine(line);
    if |content| == 0 {
      assert init == [];
      assert AppendLine(content, line) == tail;
    } else {
      var p := content[..|content| - 1];
      PiecesBeforeFinalNewline(content, init);
      assert AppendLine(content, line) == p + ['\n'] + tail;
      SplitAtSeparator(p, tail, '\n');
    }
  }

  /** Dropping the final newline of a terminated file drops its empty last piece. */
  lemma {:induction false} PiecesBeforeFinalNewline(content: string, init: seq<string>)
    requires |content| > 0 && content[|content| - 1] == '\n'
    requires Split(content, '\n') == init + [""]
    ensures Split(content[..|content| - 1], '\n') == init
  {
    var p := content[..|content| - 1];
    assert content == p + ['\n'] + "";
    SplitAtSeparator(p, "", '\n');
    CancelEmptyLast(Split(p, '\n'), init);
  }

  /** Appending any newline-free text to a terminated file makes the reader
      see the old lines unchanged and then that text as `BufRead::lines`
      yields it, that is, without a trailing carriage return. */
  lemma {:induction false} LinesAppendRaw(content: string, raw: string)
    requires Terminated(content)
    requires '\n' !in raw
    ensures Lines(AppendLine(content, raw)) == Lines(content) + [StripCr(raw)]
  {
    var init := TerminatedSplit(content);
    SplitAppendLine(content, raw, init);
    LinesOfPieces(AppendLine(content, raw), init + [raw]);
    MapAppend(StripCr, init, raw);
  }

  /** A final line without a newline is still read: text appended to a
      terminated file without a newline reads back verbatim after the old
      lines, a trailing carriage return included. */
  lemma {:induction false} LinesUnterminated(content: string, raw: string)
    requires Terminated(content)
    requires '\n' !in raw
    requires raw != ""
    ensures Lines(content + raw) == Lines(content) + [raw]
  {
    var init := TerminatedSplit(content);
    SplitNoSeparator(raw, '\n');
    if |content| == 0 {
      assert content + raw == raw;
      assert init == [];
    } else {
      var p := content[..|content| - 1];
      PiecesBeforeFinalNewline(content, init);
      assert content + raw == p + ['\n'] + raw;
      SplitAtSeparator(p, raw, '\n');
    }
    LinesOfLastPiece(content + raw, init, raw);
  }

  /** Text whose last piece is not empty reads as its other pieces, each
      without a trailing carriage return, then that last piece as it is. */
  lemma LinesOfLastPiece(content: string, pieces: seq<string>, last: string)
    requires Split(content, '\n') == pieces + [last]
    requires last != ""
    ensures Lines(content) == Map(StripCr, pieces) + [last]
  {
    assert Split(content, '\n')[..|pieces|] == pieces;
  }

  /** Text whose last piece is empty reads as its other pieces, each without a
      trailing carriage return. */
  lemma LinesOfPieces(content: string, pieces: seq<string>)
    requires Split(content, '\n') == pieces + [""]
    ensures Lines(content) == Map(StripCr, pieces)
  {
    assert Split(content, '\n')[..|pieces|] == pieces;
  }

  /** Two piece lists that agree after an empty last piece is added agree. */
  lemma CancelEmptyLast(a: seq<string>, b: seq<string>)
    requires a + [""] == b + [""]
    ensures a == b
  {
    assert a == (a + [""])[..|a|] == (b + [""])[..|b|] == b;
  }

  /** Appending a line to a terminated file adds exactly that line at the end
      of what the reader sees, and leaves the earlier lines as they were. */
  lemma {:induction false} LinesAppendLine(content: string, line: string)
    requires Terminated(content)
    requires IsLine(line)
    ensures Lines(AppendLine(content, line)) == Lines(content) + [line]
  {
    LinesAppendRaw(content, line);
  }

  /** A line ended by "\r\n" (a Windows line ending) added to a terminated file
      reads back as the line without its carriage return. */
  lemma {:induction false} LinesAppendCrLfLine(content: string, line: string)
    requires Terminated(content)
    requires IsLine(line)
    ensures Lines(content + line + "\r\n") == Lines(content) + [line]
  {
    var crLine := line + "\r";
    assert content + line + "\r\n" == AppendLine(content, crLine);
    LinesAppendRaw(content, crLine);
    assert StripCr(crLine) == line;
  }

  /** Reading back a file written line by line gives exactly those lines, in order. */
  lemma {:induction false} LinesUnlines(lines: seq<string>)
    requires forall i :: 0 <= i < |lines| ==> IsLine(lines[i])
    ensures Lines(Unlines(lines)) == lines
  {
    if |lines| == 0 {
      NoLinesInEmptyFile();
    } else {
      var init := lines[..|lines| - 1];
      var last := lines[|lines| - 1];
      assert IsLine(last);
      assert forall i :: 0 <= i < |init| ==> IsLine(init[i]);
      LinesUnlines(init);
      assert Unlines(lines) == AppendLine(Unlines(init), last);
      LinesAppendLine(Unlines(init), last);
      assert init + [last] == lines;
    }
  }

  /** The empty file has no lines. */
  lemma NoLinesInEmptyFile()
    ensures Lines("") == []
  {
    assert Split("", '\n') == [""];
  }
}

=== FILE: program.dfy ===
/** One run of the program as a pure function of its environment: the argument
    vector, the home directory, the file system and the clock go in; the exit
    status, the printed lines and the file system afterwards come out. */
module Program {
  import opened Wrappers
  import opened Seqs
  import opened Text
  import opened LogFile
  import opened Journal
  import opened Cli

  /** Exit status of a run that completes. */
  const SuccessStatus: int := 0
  /** Exit status after the usage message. */
  const UsageStatus: int := 1
  /** Exit status of a Rust panic, which is how every other error ends a run. */
  const PanicStatus: int := 101

  /** A file at a path: its text, and whether this process may open it for
      reading (`File::open`) and for appending (`OpenOptions` with append).
      The two are independent: a read-only journal can be read but not
      appended to, and a write-only one the reverse. */
  datatype Node = File(content: string, readable: bool, appendable: bool)

  type FileSystem = map<string, Node>

  /** Everything a run reads from the outside world. */
  datatype Env = Env(args: seq<string>, home: HomeLookup, fs: FileSystem, now: Timestamp)

  /** The library code a run relies on: the count parser, the JSON codec and
      the timestamp formatter. */
  datatype Libs = Libs(parse: string -> Option<nat>, codec: Codec, format: Timestamp -> string)

  /** What a run leaves behind. */
  datatype Outcome = Outcome(status: int, stdout: seq<string>, fs: FileSystem)

  /** The file at `path` is exactly the encodings of `entries`, one per line. */
  predicate Holds(fs: FileSystem, path: string, codec: Codec, entries: seq<Entry>)
  {
    path in fs && fs[path].content == Unlines(Map(codec.encode, entries))
  }

  /** The journal at `path` stores `entries`; a journal that does not exist yet
      stores none. */
  predicate Stores(fs: FileSystem, path: string, codec: Codec, entries: seq<Entry>)
  {
    (path !in fs && entries == []) || Holds(fs, path, codec, entries)
  }

  /** The journal at `path` can be appended to: it is absent (and will be
      created) or it may be opened for appending. */
  predicate Appendable(fs: FileSystem, path: string)
  {
    path in fs ==> fs[path].appendable
  }

  /** The journal at `path` can be read: it is absent (and a read fails with
      FileNotFound) or it may be opened for reading. */
  predicate Readable(fs: FileSystem, path: string)
  {
    path in fs ==> fs[path].readable
  }

  /** The text the journal file has before a write: empty when it does not exist yet. */
  function Existing(fs: FileSystem, path: string): string
  {
    if path in fs then fs[path].content else ""
  }

  /** Appending one entry: resolve the path, stamp the entry with the current
      time, open the file for appending (creating it, readable and appendable,
      when absent) and add one encoded line. Only the journal file changes,
      and its permissions stay as they were. */
  function WriteEntry(home: HomeLookup, fs: FileSystem, now: Timestamp, body: string, codec: Codec)
    : (r: Result<FileSystem, Error>)
    ensures !home.Home? ==> r == Failure(ResolvePath(home).error)
    ensures home.Home? ==>
      var path := JournalPath(home.dir);
      && (r.Failure? <==> !Appendable(fs, path))
      && (r.Failure? ==> r.error == FileOpenError)
      && (r.Success? ==> r.value.Keys == fs.Keys + {path})
      && (r.Success? ==> forall p :: p in fs && p != path ==> r.value[p] == fs[p])
      && (r.Success? ==> r.value[path].content == AppendLine(Existing(fs, path), codec.encode(Entry(now, body))))
      && (r.Success? && path in fs ==> r.value[path].readable == fs[path].readable && r.value[path].appendable)
      && (r.Success? && path !in fs ==> r.value[path].readable && r.value[path].appendable)
  {
    match ResolvePath(home)
    case Failure(e) => Failure(e)
    case Success(path) =>
      var line := codec.encode(Entry(now, body));
      if path !in fs then Success(fs[path := File(AppendLine("", line), true, true)])
      else if !fs[path].appendable then Failure(FileOpenError)
      else Success(fs[path := fs[path].(content := AppendLine(fs[path].content, line))])
  }

  /** Reading the last `n` entries: resolve the path, open the existing file for
      reading, decode every line (one bad line rejects the whole read) and
      format the last `min(n, count)` decoded entries. Nothing is written. */
  function ReadLastN(home: HomeLookup, fs: FileSystem, n: nat, codec: Codec, format: Timestamp -> string)
    : (r: Result<seq<string>, Error>)
    ensures !home.Home? ==> r == Failure(ResolvePath(home).error)
    ensures home.Home? && JournalPath(home.dir) !in fs ==> r == Failure(FileNotFound)
    ensures home.Home? && JournalPath(home.dir) in fs && !fs[JournalPath(home.dir)].readable ==>
      r == Failure(FileOpenError)
    ensures r.Success? <==>
      && home.Home? && JournalPath(home.dir) in fs && fs[JournalPath(home.dir)].readable
      && DecodeAll(Lines(fs[JournalPath(home.dir)].content), codec.decode).Some?
    ensures r.Success? ==>
      r.value == FormatLastN(DecodeAll(Lines(fs[JournalPath(home.dir)].content), codec.decode).value, n, format)
  {
    match ResolvePath(home)
    case Failure(e) => Failure(e)
    case Success(path) =>
      if path !in fs then Failure(FileNotFound)
      else if !fs[path].readable then Failure(FileOpenError)
      else
        match DecodeAll(Lines(fs[path].content), codec.decode)
        case None => Failure(DeserializationError)
        case Some(entries) => Success(FormatLastN(entries, n, format))
  }

  /** The whole program: dispatch on the arguments, then write or read. The
      usage error exits with 1, every other error is a panic; a run that
      fails prints nothing and leaves the file system as it was. */
  function Run(env: Env, libs: Libs): (r: Outcome)
    ensures r.status == SuccessStatus || r.status == UsageStatus || r.status == PanicStatus
    ensures r.status == UsageStatus <==> |env.args| < 2
    ensures r.status != SuccessStatus ==> r.stdout == [] && r.fs == env.fs
    ensures r.fs != env.fs ==> Dispatch(env.args, libs.parse).Write?
    ensures r.stdout != [] ==> Dispatch(env.args, libs.parse).ReadLast?
    ensures Dispatch(env.args, libs.parse).Write? ==>
      (r.status == SuccessStatus <==>
         WriteEntry(env.home, env.fs, env.now, Dispatch(env.args, libs.parse).body, libs.codec).Success?)
    ensures Dispatch(env.args, libs.parse).ReadLast? ==>
      (r.status == SuccessStatus <==>
         ReadLastN(env.home, env.fs, Dispatch(env.args, libs.parse).n, libs.codec, libs.format).Success?)
    ensures Dispatch(env.args, libs.parse).Write? && r.status == SuccessStatus ==>
      r.fs == WriteEntry(env.home, env.fs, env.now, Dispatch(env.args, libs.parse).body, libs.codec).value
    ensures Dispatch(env.args, libs.parse).ReadLast? && r.status == SuccessStatus ==>
      r.stdout == ReadLastN(env.home, env.fs, Dispatch(env.args, libs.parse).n, libs.codec, libs.format).value
  {
    match Dispatch(env.args, libs.parse)
    case Usage => Outcome(UsageStatus, [], env.fs)
    case MissingCount => Outcome(PanicStatus, [], env.fs)
    case BadCount(_) => Outcome(PanicStatus, [], env.fs)
    case ReadLast(n) =>
      (match ReadLastN(env.home, env.fs, n, libs.codec, libs.format)
       case Failure(_) => Outcome(PanicStatus, [], env.fs)
       case Success(lines) => Outcome(SuccessStatus, lines, env.fs))
    case Write(body) =>
      match WriteEntry(env.home, env.fs, env.now, body, libs.codec)
      case Failure(_) => Outcome(PanicStatus, [], env.fs)
      case Success(fs) => Outcome(SuccessStatus, [], fs)
  }

  /** Too few arguments: usage error, nothing read, nothing written. */
  lemma RunTooFewArgs(env: Env, libs: Libs)
    requires |env.args| < 2
    ensures Run(env, libs) == Outcome(UsageStatus, [], env.fs)
  {
  }

  /** A read flag without a usable count is a fatal error, not a write of "-n". */
  lemma RunBadCount(env: Env, libs: Libs)
    requires |env.args| >= 2 && env.args[1] == ReadFlag
    requires |env.args| == 2 || libs.parse(env.args[2]).None?
    ensures Run(env, libs) == Outcome(PanicStatus, [], env.fs)
  {
  }

  /** A write keeps the file a journal: if the file held `entries` (or did not
      exist, and `entries` is empty) and may be appended to, afterwards it holds
      `entries` plus the new entry at the end, stamped with the current time and
      carrying the body verbatim; its permissions are unchanged. */
  lemma {:induction false} RunWriteExtendsJournal(env: Env, libs: Libs, entries: seq<Entry>)
    requires env.home.Home?
    requires Dispatch(env.args, libs.parse).Write?
    requires Stores(env.fs, JournalPath(env.home.dir), libs.codec, entries)
    requires Appendable(env.fs, JournalPath(env.home.dir))
    ensures Run(env, libs).status == SuccessStatus
    ensures Holds(Run(env, libs).fs, JournalPath(env.home.dir), libs.codec,
                  Append(entries, Entry(env.now, Dispatch(env.args, libs.parse).body)))
    ensures Appendable(Run(env, libs).fs, JournalPath(env.home.dir))
    ensures Readable(Run(env, libs).fs, JournalPath(env.home.dir)) == Readable(env.fs, JournalPath(env.home.dir))
  {
    var e := Entry(env.now, Dispatch(env.args, libs.parse).body);
    MapAppend(libs.codec.encode, entries, e);
    assert Unlines(Map(libs.codec.encode, entries + [e]))
        == AppendLine(Unlines(Map(libs.codec.encode, entries)), libs.codec.encode(e));
  }

  /** A read of a well-formed journal prints the last `n` entries in file order. */
  lemma {:induction false} RunReadPrintsLastN(env: Env, libs: Libs, entries: seq<Entry>)
    requires Faithful(libs.codec)
    requires env.home.Home?
    requires Dispatch(env.args, libs.parse).ReadLast?
    requires Holds(env.fs, JournalPath(env.home.dir), libs.codec, entries)
    requires env.fs[JournalPath(env.home.dir)].readable
    ensures Run(env, libs) ==
      Outcome(SuccessStatus, FormatLastN(entries, Dispatch(env.args, libs.parse).n, libs.format), env.fs)
  {
    var lines := Map(libs.codec.encode, entries);
    assert forall i :: 0 <= i < |lines| ==> IsLine(lines[i]);
    LinesUnlines(lines);
    DecodeAllEncoded(libs.codec, entries);
  }

  /** All or nothing: if any line of the journal fails to decode, the read
      fails and prints nothing. */
  lemma RunReadRejectsBadLine(env: Env, libs: Libs, i: nat)
    requires env.home.Home?
    requires Dispatch(env.args, libs.parse).ReadLast?
    requires JournalPath(env.home.dir) in env.fs && env.fs[JournalPath(env.home.dir)].readable
    requires i < |Lines(env.fs[JournalPath(env.home.dir)].content)|
    requires libs.codec.decode(Lines(env.fs[JournalPath(env.home.dir)].content)[i]).None?
    ensures Run(env, libs) == Outcome(PanicStatus, [], env.fs)
  {
  }

  /** A write that cannot resolve the home directory, or that finds a journal
      it may not append to, is a panic: nothing is printed or written. */
  lemma RunWriteFails(env: Env, libs: Libs)
    requires Dispatch(env.args, libs.parse).Write?
    requires !env.home.Home? || (JournalPath(env.home.dir) in env.fs && !env.fs[JournalPath(env.home.dir)].appendable)
    ensures Run(env, libs) == Outcome(PanicStatus, [], env.fs)
  {
  }

  /** A read that cannot resolve the home directory, or that finds a journal
      it may not read, is a panic: nothing is printed or written. */
  lemma RunReadFails(env: Env, libs: Libs)
    requires Dispatch(env.args, libs.parse).ReadLast?
    requires !env.home.Home? || (JournalPath(env.home.dir) in env.fs && !env.fs[JournalPath(env.home.dir)].readable)
    ensures Run(env, libs) == Outcome(PanicStatus, [], env.fs)
  {
  }

  /** Reading a journal that was never written fails; writing to it creates it. */
  lemma RunMissingFile(env: Env, libs: Libs)
    requires env.home.Home?
    requires JournalPath(env.home.dir) !in env.fs
    ensures Dispatch(env.args, libs.parse).ReadLast? ==> Run(env, libs) == Outcome(PanicStatus, [], env.fs)
    ensures Dispatch(env.args, libs.parse).Write? ==>
      Run(env, libs).status == SuccessStatus && JournalPath(env.home.dir) in Run(env, libs).fs
  {
  }

  /** Write then read the last one: the output is exactly one line, the entry
      just written with its body verbatim. */
  lemma {:induction false} WriteThenReadLast(env: Env, libs: Libs, entries: seq<Entry>, readArgs: seq<string>, later: Timestamp)
    requires Faithful(libs.codec)
    requires env.home.Home?
    requires Dispatch(env.args, libs.parse).Write?
    requires Stores(env.fs, JournalPath(env.home.dir), libs.codec, entries)
    requires Appendable(env.fs, JournalPath(env.home.dir)) && Readable(env.fs, JournalPath(env.home.dir))
    requires Dispatch(readArgs, libs.parse) == ReadLast(1)
    ensures
      var read := Run(Env(readArgs, env.home, Run(env, libs).fs, later), libs);
      read == Outcome(SuccessStatus, [FormatLine(Entry(env.now, Dispatch(env.args, libs.parse).body), libs.format)],
                      Run(env, libs).fs)
  {
    var e := Entry(env.now, Dispatch(env.args, libs.parse).body);
    var written := Run(env, libs);
    RunWriteExtendsJournal(env, libs, entries);
    var readEnv := Env(readArgs, env.home, written.fs, later);
    RunReadPrintsLastN(readEnv, libs, Append(entries, e));
    LastOneAfterAppend(entries, e);
  }

  /** Every argument vector in `argvs` asks for a write: it has a first
      argument and that argument is not the read flag. */
  predicate AllWrites(argvs: seq<seq<string>>)
  {
    forall i :: 0 <= i < |argvs| ==> |argvs[i]| >= 2 && argvs[i][1] != ReadFlag
  }

  /** The entries a series of write runs creates, in the order of the runs. */
  function Written(argvs: seq<seq<string>>, times: seq<Timestamp>): (es: seq<Entry>)
    requires |times| == |argvs| && AllWrites(argvs)
    ensures |es| == |argvs|
  {
    seq(|argvs|, i requires 0 <= i < |argvs| => Entry(times[i], Join(argvs[i][1..], " ")))
  }

  /** The file system after running the program once per argument vector, in
      order, with the clock reading `times[i]` during run `i`. */
  function RunAll(home: HomeLookup, fs: FileSystem, libs: Libs, argvs: seq<seq<string>>, times: seq<Timestamp>)
    : FileSystem
    requires |times| == |argvs|
    decreases |argvs|
  {
    if |argvs| == 0 then fs
    else RunAll(home, Run(Env(argvs[0], home, fs, times[0]), libs).fs, libs, argvs[1..], times[1..])
  }

  /** A series of writes extends the journal by one entry per run, in run order. */
  lemma {:induction false} RunAllExtendsJournal(
    home: HomeLookup, fs: FileSystem, libs: Libs, argvs: seq<seq<string>>, times: seq<Timestamp>, entries: seq<Entry>)
    requires home.Home?
    requires |times| == |argvs| && AllWrites(argvs)
    requires Stores(fs, JournalPath(home.dir), libs.codec, entries)
    requires Appendable(fs, JournalPath(home.dir))
    ensures Stores(RunAll(home, fs, libs, argvs, times), JournalPath(home.dir), libs.codec,
                   entries + Written(argvs, times))
    ensures |argvs| > 0 ==> JournalPath(home.dir) in RunAll(home, fs, libs, argvs, times)
    ensures Appendable(RunAll(home, fs, libs, argvs, times), JournalPath(home.dir))
    ensures Readable(RunAll(home, fs, libs, argvs, times), JournalPath(home.dir)) == Readable(fs, JournalPath(home.dir))
    decreases |argvs|
  {
    var written := Written(argvs, times);
    if |argvs| == 0 {
      assert entries + written == entries;
    } else {
      var e := Entry(times[0], Join(argvs[0][1..], " "));
      var fs1 := RunAllFirstStep(home, fs, libs, argvs, times, entries);
      var rest := WrittenTail(argvs, times);
      RunAllExtendsJournal(home, fs1, libs, argvs[1..], times[1..], Append(entries, e));
      AppendThenRest(entries, e, rest, written);
    }
  }

  /** Appending one entry and then the rest is appending the whole series. */
  lemma AppendThenRest(entries: seq<Entry>, e: Entry, rest: seq<Entry>, written: seq<Entry>)
    requires written == [e] + rest
    ensures Append(entries, e) + rest == entries + written
  {
    assert Append(entries, e) + rest == entries + ([e] + rest);
  }

  /** The first run of a series of writes stores its entry and leaves the rest
      of the series to run on the resulting file system. */
  lemma RunAllFirstStep(
    home: HomeLookup, fs: FileSystem, libs: Libs, argvs: seq<seq<string>>, times: seq<Timestamp>, entries: seq<Entry>)
    returns (fs1: FileSystem)
    requires home.Home?
    requires |times| == |argvs| > 0 && |argvs[0]| >= 2 && argvs[0][1] != ReadFlag
    requires Stores(fs, JournalPath(home.dir), libs.codec, entries)
    requires Appendable(fs, JournalPath(home.dir))
    ensures Holds(fs1, JournalPath(home.dir), libs.codec,
                  Append(entries, Entry(times[0], Join(argvs[0][1..], " "))))
    ensures Appendable(fs1, JournalPath(home.dir))
    ensures Readable(fs1, JournalPath(home.dir)) == Readable(fs, JournalPath(home.dir))
    ensures RunAll(home, fs, libs, argvs, times) == RunAll(home, fs1, libs, argvs[1..], times[1..])
  {
    var env := Env(argvs[0], home, fs, times[0]);
    RunWriteExtendsJournal(env, libs, entries);
    fs1 := Run(env, libs).fs;
  }

  /** The entries of a series of writes: the first run's entry, then the rest's. */
  lemma WrittenTail(argvs: seq<seq<string>>, times: seq<Timestamp>)
    returns (rest: seq<Entry>)
    requires |times| == |argvs| > 0 && AllWrites(argvs)
    ensures AllWrites(argvs[1..])
    ensures rest == Written(argvs[1..], times[1..])
    ensures Written(argvs, times) == [Entry(times[0], Join(argvs[0][1..], " "))] + rest
  {
    assert forall i :: 0 <= i < |argvs| - 1 ==> argvs[1..][i] == argvs[i + 1];
    rest := Written(argvs[1..], times[1..]);
  }

  /** Order preservation: after a series of writes, reading as many entries as
      were written prints exactly those entries, oldest first. */
  lemma {:induction false} RunAllThenReadBack(
    home: HomeLookup, fs: FileSystem, libs: Libs, argvs: seq<seq<string>>, times: seq<Timestamp>,
    entries: seq<Entry>, readArgs: seq<string>, later: Timestamp)
    requires Faithful(libs.codec)
    requires home.Home?
    requires |times| == |argvs| > 0 && AllWrites(argvs)
    requires Stores(fs, JournalPath(home.dir), libs.codec, entries)
    requires Appendable(fs, JournalPath(home.dir)) && Readable(fs, JournalPath(home.dir))
    requires Dispatch(readArgs, libs.parse) == ReadLast(|argvs|)
    ensures Run(Env(readArgs, home, RunAll(home, fs, libs, argvs, times), later), libs)
         == Outcome(SuccessStatus, Map((e: Entry) => FormatLine(e, libs.format), Written(argvs, times)),
                    RunAll(home, fs, libs, argvs, times))
  {
    var written := Written(argvs, times);
    var fs' := RunAll(home, fs, libs, argvs, times);
    RunAllExtendsJournal(home, fs, libs, argvs, times, entries);
    RunReadPrintsLastN(Env(readArgs, home, fs', later), libs, entries + written);
    LastNAfterAppends(entries, written);
  }
}

=== FILE: seqs.dfy ===
/** Small generic sequence helpers. */
module Seqs {

  /** The smaller of two naturals (Rust's `std::cmp::min` on `usize`). */
  function Min(a: nat, b: nat): (m: nat)
    ensures m <= a && m <= b
    ensures m == a || m == b
  {
    if a <= b then a else b
  }

  /** `f` applied to every element of `s`, in order. */
  function Map<A, B>(f: A -> B, s: seq<A>): (r: seq<B>)
    ensures |r| == |s|
    ensures forall i :: 0 <= i < |s| ==> r[i] == f(s[i])
  {
    seq(|s|, i requires 0 <= i < |s| => f(s[i]))
  }

  lemma MapAppend<A, B>(f: A -> B, s: seq<A>, x: A)
    ensures Map(f, s + [x]) == Map(f, s) + [f(x)]
  {
    assert Map(f, s + [x])[..|s|] == Map(f, s);
  }
}

=== FILE: text.dfy ===
/** Joining words with a separator and splitting text at a separator character.
    Rust's `[String]::join` builds the entry body from the command-line words;
    splitting at a character is the partner operation, and splitting at newline
    is how the journal file is cut into lines. */
module Text {

  /** Sum of the lengths of all parts. */
  function TotalLength(parts: seq<string>): nat
  {
    if |parts| == 0 then 0 else |parts[0]| + TotalLength(parts[1..])
  }

  /** `parts` with `sep` between each neighbouring pair and nowhere else. */
  function Join(parts: seq<string>, sep: string): (r: string)
    ensures |parts| == 0 ==> r == ""
    ensures |parts| == 1 ==> r == parts[0]
    ensures |parts| >= 1 ==> |r| == TotalLength(parts) + (|parts| - 1) * |sep|
  {
    if |parts| == 0 then ""
    else if |parts| == 1 then parts[0]
    else parts[0] + sep + Join(parts[1..], sep)
  }

  /** `s` cut at every occurrence of `c` (Rust's `str::split` with a char
      pattern): always at least one piece, and no piece contains the separator. */
  function Split(s: string, c: char): (r: seq<string>)
    ensures |r| >= 1
    ensures forall i :: 0 <= i < |r| ==> c !in r[i]
  {
    if |s| == 0 then [""]
    else
      var rest := Split(s[1..], c);
      if s[0] == c then [""] + rest
      else [[s[0]] + rest[0]] + rest[1..]
  }

  /** There is one more piece than there are separators in the text. */
  lemma {:induction false} SplitCount(s: string, c: char)
    ensures |Split(s, c)| == multiset(s)[c] + 1
  {
    if |s| > 0 {
      assert s == [s[0]] + s[1..];
      SplitCount(s[1..], c);
    }
  }

  /** Prepending to the first part prepends to the joined text. */
  lemma {:induction false} JoinExtendFirst(x: string, ys: seq<string>, sep: string)
    requires |ys| >= 1
    ensures Join([x + ys[0]] + ys[1..], sep) == x + Join(ys, sep)
  {
    var zs := [x + ys[0]] + ys[1..];
    if |ys| > 1 {
      assert zs[1..] == ys[1..];
    }
  }

  /** Splitting loses nothing: joining the pieces back with the separator gives `s`. */
  lemma {:induction false} JoinSplit(s: string, c: char)
    ensures Join(Split(s, c), [c]) == s
  {
    if |s| > 0 {
      var rest := Split(s[1..], c);
      JoinSplit(s[1..], c);
      if s[0] == c {
        assert ([""] + rest)[1..] == rest;
      } else {
        JoinExtendFirst([s[0]], rest, [c]);
      }
    }
  }

  /** Text without the separator is a single piece. */
  lemma {:induction false} SplitNoSeparator(s: string, c: char)
    requires c !in s
    ensures Split(s, c) == [s]
  {
    if |s| > 0 {
      assert s == [s[0]] + s[1..] && s[0] != c;
      SplitNoSeparator(s[1..], c);
    }
  }

  /** Splitting is compositional at a separator occurrence. */
  lemma {:induction false} SplitAtSeparator(a: string, b: string, c: char)
    ensures Split(a + [c] + b, c) == Split(a, c) + Split(b, c)
  {
    var s := a + [c] + b;
    if |a| == 0 {
      assert s[1..] == b;
    } else {
      assert s[1..] == a[1..] + [c] + b;
      SplitAtSeparator(a[1..], b, c);
    }
  }

  /** Joining is injective on separator-free words: splitting the joined text
      at the separator gives back exactly the words. */
  lemma {:induction false} SplitJoin(parts: seq<string>, c: char)
    requires |parts| >= 1
    requires forall i :: 0 <= i < |parts| ==> c !in parts[i]
    ensures Split(Join(parts, [c]), c) == parts
  {
    if |parts| == 1 {
      SplitNoSeparator(parts[0], c);
    } else {
      SplitNoSeparator(parts[0], c);
      SplitJoin(parts[1..], c);
      SplitAtSeparator(parts[0], Join(parts[1..], [c]), c);
    }
  }
}

=== FILE: wrappers.dfy ===
/** Failure-carrying result types used across the model. */
module Wrappers {

  /** A value that may be absent: a decoder or parser that rejects its input returns None. */
  datatype Option<+T> = None | Some(value: T)

  /** The outcome of an operation that either produces a value or fails with an error. */
  datatype Result<+T, +E> = Success(value: T) | Failure(error: E)
}
